=== FILE: README.md ===
# Poster rotation: a Dafny model

`scripts/replace_posters.py` rotates the poster images of virtual-world
directories. For every world in `world-list.txt` it finds the slot files
`poster<N>.png` and orders them by `N`. It hashes the image each slot holds now.
It then draws replacements from a shared image pool, in a per-world shuffled
order. The rules are: no two slots of a world get the same image (by content
hash), and a slot avoids its previous image whenever, at its turn, an unused
pool image with another hash remains. The choice is greedy, slot by slot, so a
slot can get its old image even when another assignment would have repeated
nothing. If the pool runs out of distinct images, the world is skipped.

This project models the pure logic of that script and proves what it
guarantees:

- `Text` (`text.dfy`): Python's `str.strip()` on code points, using CPython's
  whitespace table.
- `WorldList` (`world_list.dfy`): reading the world list, i.e. strip every
  line and drop blank ones.
- `PosterFiles` (`poster_files.dfy`): the slot filter `poster<digits>.png`,
  `int()` on the digits, and a stable sort by that number. The sort is stable
  because Python's `list.sort` is.
- `Assignment` (`assignment.dfy`): the selection loop. It has a functional
  definition (`FindFrom`, `PickFor`, `Select`, `Assign`) and an imperative
  one (`Scan`, `ServeSlot`, `SelectPosters`) that mirrors the nested `for`
  loops. The two are proved equal.
- `World` (`world.dfy`): one world's pass through `main`. The outcome is a
  missing directory, no posters, an exhausted pool, or a plan of copies, one
  per slot.
- `RepoSlug` (`repo_slug.dfy`): the `owner/name` slug derived from the origin
  URL. It has the expression as written and the evidently intended derivation.

Hashes are a type parameter `H` compared only for equality. A slot whose file
does not exist has previous hash `None`, and `None` never equals a pool hash.
The shuffled pool is an input. `PlanWorld` and `Assign` require it to be a
permutation of the catalogue (`multiset(shuffled) == multiset(pool)`).

Two behaviours of the code are easy to miss:

- A warning is printed whenever the primary pass finds nothing. That includes
  the slot where the fallback then fails too. So `SelectPosters` reports that
  slot in `warned`.
- Slot numbers are any non-empty ASCII digit string. That includes `0` and
  leading zeros. `poster1.png` and `poster01.png` share number 1 and stay in
  listing order.

## Model

| member | source | states |
|---|---|---|
| Text.Strip | scripts/replace_posters.py:49 | the result is a contiguous part of the input, with only whitespace cut from either end and none left at either end; it is empty exactly when the line is all whitespace |
| Text.StripIdempotent | scripts/replace_posters.py:49 | stripping a second time changes nothing |
| Text.StrippedIsFixed | scripts/replace_posters.py:49 | a string without surrounding whitespace is its own stripped form |
| WorldList.Worlds | scripts/replace_posters.py:48-49 | there are at most as many worlds as lines; no world is empty or has surrounding whitespace; a string is a world exactly when it is the non-empty stripped form of some line |
| WorldList.WorldsAppend | scripts/replace_posters.py:49 | the worlds of two consecutive blocks of lines are the worlds of the first followed by those of the second, so line order is kept |
| WorldList.WorldsOfLine | scripts/replace_posters.py:49 | one line yields its stripped text, or nothing when that is empty |
| WorldList.WorldsOfClean | scripts/replace_posters.py:49 | lines that are already clean identifiers come back unchanged, so reading the list is idempotent |
| PosterFiles.Middle | scripts/replace_posters.py:63 | the slice `name[6:-4]` is the part between the first six and the last four characters, and is empty for names shorter than ten |
| PosterFiles.PosterNameShape | scripts/replace_posters.py:63 | the filter accepts a name exactly when it is `poster`, then one or more ASCII digits, then `.png` |
| PosterFiles.Number | scripts/replace_posters.py:65 | a leading zero does not change the value of a digit string, so `poster1.png` and `poster01.png` get the same sort key |
| PosterFiles.NumberOfDecimal | scripts/replace_posters.py:65 | `int()` of the decimal rendering of a number gives back that number |
| PosterFiles.SlotNameKey | scripts/replace_posters.py:63-65 | `poster<n>.png` passes the filter and sorts as number `n` |
| PosterFiles.Insert | scripts/replace_posters.py:65 | inserting adds exactly one entry, keeping every other entry |
| PosterFiles.InsertSorted | scripts/replace_posters.py:65 | inserting into a sorted list keeps it sorted |
| PosterFiles.SortBy | scripts/replace_posters.py:65 | the result is sorted by the key and is a permutation of the input |
| PosterFiles.SortStable | scripts/replace_posters.py:65 | for every key, the entries with that key keep their input order |
| PosterFiles.Keep | scripts/replace_posters.py:62-64 | each name occurs in the result as often as in the listing when it passes the filter, and not at all otherwise |
| PosterFiles.PosterSlots | scripts/replace_posters.py:61-66 | the slots are exactly the listing's names that pass the filter, each as often as listed, in ascending order of their number |
| PosterFiles.KeepAppend | scripts/replace_posters.py:62-64 | the filter keeps listing order: filtering two listings joined gives the first's kept entries followed by the second's |
| PosterFiles.KeepOfName | scripts/replace_posters.py:62-64 | a single entry is kept exactly when it is a poster name |
| PosterFiles.PosterSlotsStable | scripts/replace_posters.py:65 | slots with equal numbers come in the order the filter keeps them, which `KeepAppend` shows is listing order |
| Assignment.FindFrom | scripts/replace_posters.py:154-159 | the result is the first eligible position at or after the start, or `None` exactly when no position there is eligible |
| Assignment.PickFor | scripts/replace_posters.py:152-168 | a pick is the first candidate that passes the primary test, or, only when none passes it, the first candidate with an unused hash; there is no pick exactly when every pool hash is used |
| Assignment.Select | scripts/replace_posters.py:152-171 | the slot loop serves at most one pick per slot; which pick each slot gets is stated by `SelectSpec`, how many slots are served by `SelectLength` |
| Assignment.SelectSpec | scripts/replace_posters.py:152-171 | every pick is the correct first pick for its slot, given the hashes used by the earlier picks; the selection stops early only when every pool hash is used |
| Assignment.SelectProperties | scripts/replace_posters.py:154-167 | each pick is the entry at its position in the shuffled pool; its hash is not among those used before; the hashes of the picks are pairwise distinct; a primary-pass pick differs from its slot's previous hash |
| Assignment.SelectLength | scripts/replace_posters.py:152-173 | the number of slots served is the smaller of the slot count and the number of distinct pool hashes not yet used |
| Assignment.SpareImageAvoidsFallback | scripts/replace_posters.py:154-168 | when the pool has more distinct hashes than the slots still to serve, every slot is served and none by the fallback pass |
| Assignment.GreedyRepeatsAvoidable | scripts/replace_posters.py:152-168 | with shuffled pool `[B:2, A:1]`, a missing slot 0 and slot 1 holding hash 1, slot 0 takes B and slot 1 falls back to A, its old image, although A then B repeats nothing |
| Assignment.ShuffleKeepsHashes | scripts/replace_posters.py:139-140 | a permutation of the pool has the same distinct hashes |
| Assignment.Assign | scripts/replace_posters.py:136-175 | the selection is complete exactly when the pool has at least as many distinct hashes as the world has slots, whatever the shuffle; a complete one has one pick per slot, all from the pool, with pairwise distinct hashes, primary-pass picks avoiding the previous hash, each pick the first correct one |
| Assignment.Scan | scripts/replace_posters.py:154-159 | the scan returns an eligible position, and it is the first eligible one |
| Assignment.SelectPosters | scripts/replace_posters.py:137-171 | the slot loop selects the same images as `Select` from an empty used set; the warned slots are those served by the fallback pass, plus the slot where both passes failed |
| Assignment.ServeSlot | scripts/replace_posters.py:153-168 | the two passes for one slot yield exactly the pick `PickFor` describes; the warning is due exactly when the primary pass failed, that is when the slot is served by the fallback pass or not at all |
| Assignment.SelectPicksFirst | scripts/replace_posters.py:152-168 | every pick is the correct first pick for its slot given the hashes of the earlier picks (the first half of `SelectSpec`) |
| Assignment.SelectStopsExhausted | scripts/replace_posters.py:169-171 | when the loop stops before the last slot, every pool hash is already used in the world (the second half of `SelectSpec`) |
| Assignment.PrimaryServes | scripts/replace_posters.py:154-158 | with at least two unused distinct hashes in the pool, the primary pass serves the slot whatever its previous hash |
| Assignment.SelectAdvance | scripts/replace_posters.py:155-166 | serving one slot appends the pick, its image and its hash to the loop state, and warns the slot exactly when the fallback pass served it |
| Assignment.StopWarned | scripts/replace_posters.py:159-171 | when both passes fail, the images selected so far are the whole selection and the warnings logged are exactly the promised ones |
| Assignment.ServedAll | scripts/replace_posters.py:152-171 | when every slot was served, the loop's images and warnings are those of the whole selection |
| Assignment.WarnedSlots | scripts/replace_posters.py:159-160 | the warned slots are the ones served by the fallback pass, plus the slot where the selection stopped, if it stopped early |
| Assignment.SelectStep | scripts/replace_posters.py:155-158 | serving a slot moves its pick from the remaining selection to the part already taken |
| Assignment.SelectStop | scripts/replace_posters.py:169-171 | when both passes fail for a slot, the selection ends at that slot |
| World.MissingSlotNeverFallback | scripts/replace_posters.py:143-158 | a slot whose file does not exist has no previous image to avoid: if it is served at all, the primary pass serves it and no warning is logged |
| World.ExistingSlotAvoidsOldImage | scripts/replace_posters.py:143-158 | a slot whose file exists never gets, from the primary pass, an image with that file's hash |
| World.PlanOfSelection | scripts/replace_posters.py:177-181 | a valid complete selection yields a valid plan. Slot `i` receives image `i`. No two slots share a hash. A slot gets its previous image only with a warning, and only when every pool image is used in this world or equals that image |
| World.PlanWorld | scripts/replace_posters.py:126-181 | a missing directory, a directory without poster names, and a pool with fewer distinct hashes than slots are each recognised exactly; otherwise the plan is valid for the sorted slots |
| RepoSlug.AfterLastColon | scripts/replace_posters.py:104 | the result has no `:`, and it is a suffix of the input that is either the whole input or follows a `:` |
| RepoSlug.AfterColon | scripts/replace_posters.py:104 | everything up to the last `:` is dropped |
| RepoSlug.RemoveGit | scripts/replace_posters.py:104 | the result is never longer than the input; a first character that does not start `.git` is kept |
| RepoSlug.RemoveGitFirst | scripts/replace_posters.py:104 | the text before the first `.git` is kept, that `.git` is dropped, and the replacement continues on the text after it |
| RepoSlug.RemoveGitUnchanged | scripts/replace_posters.py:104 | the replacement leaves a string unchanged exactly when `.git` does not occur in it |
| RepoSlug.RemoveGitCanLeaveGit | scripts/replace_posters.py:104 | a `.git` can survive the replacement: `x.g.gitit` becomes `x.git`, because the scan does not look again at text it has passed |
| RepoSlug.RemoveGitSuffix | scripts/replace_posters.py:104 | a trailing `.git` is removed without disturbing what precedes it |
| RepoSlug.SlugAsWritten | scripts/replace_posters.py:104 | the derived slug contains no `:` |
| RepoSlug.SlugAsWrittenSsh | scripts/replace_posters.py:104 | on `git@github.com:<slug>.git` the expression gives `RemoveGit(<slug>)`, the slug with its `.git` occurrences removed, so it is right exactly when the slug holds no `.git` |
| RepoSlug.PagesRepositoryMangled | scripts/replace_posters.py:104 | the remote of `alice/alice.github.io` does not yield that slug |
| RepoSlug.SlugAsWrittenHttps | scripts/replace_posters.py:104 | on `https://github.com/<slug>.git` the result starts with `/`, so it is never a slug that does not |
| RepoSlug.SlugOfSsh | scripts/replace_posters.py:104 | the corrected derivation recovers any colon-free slug from its SSH remote, including names that contain `.git` |
| RepoSlug.SlugOfHttps | scripts/replace_posters.py:104 | the corrected derivation recovers the slug from its HTTPS remote |

## Left out

- SHA-256 hashing with chunked reads (`file_sha256`, lines 27-39) is a library digest over file I/O. Hashes are an abstract type compared for equality.
- `random.shuffle` (line 140) is randomness. The shuffled list is an input, required to be a permutation of the catalogue.
- Building the pool catalogue (lines 117-124) is left out. That covers listing the pool directory, the case-insensitive `.png` filter and hashing each file. The catalogue is an input.
- Directory access is left out: `os.path.isdir`, `os.listdir` and `os.path.exists`. A world's listing is `Option<seq<string>>`, and the hashes of existing slot files are a map.
- The copy loop with its per-file error handling (lines 177-209) is a filesystem side effect. The model stops at the plan of copies.
- `git_run`, `setup_git`, the environment lookups, and the commit/push sequencing (lines 69-107, 210-216) are external processes. Only the slug expression on line 104 is modelled.
- Iteration over the list of worlds is left out. Each world is planned independently, with its own shuffle and an empty used-hash set, so `PlanWorld` is per world.
- All `print` logging is left out. Fallback warnings appear as `warned` flags and outcomes as `Plan` constructors.
- WorldList.Worlds starts from the file's lines. Splitting the file into lines, including universal-newline translation, is I/O.
- PosterFiles.PosterNameShape accepts ASCII digits only. Python's `str.isdigit` also accepts other Unicode digits. `int()` parses some of them, such as Arabic-Indic digits, which the model does not accept as slots. It raises `ValueError` on others, such as a superscript two: the sort on line 65 then ends the run with that exception. The model drops all such names silently, so neither the extra slots nor the exception are modelled.
- Assignment.Select: its own contract only bounds the number of picks. The pick each slot gets is stated by `SelectSpec`, and the number of slots served by `SelectLength`.
- RepoSlug.Slug handles only the SSH form `git@github.com:<slug>` and the HTTPS form `https://github.com/<slug>`, each with an optional trailing `.git`.

## Findings

| source | as written | input that shows it | evidently intended | confidence | as-written member | corrected member |
|---|---|---|---|---|---|---|
| scripts/replace_posters.py:104 | `.replace(".git","")` removes `.git` anywhere in the path, not only at the end | origin `git@github.com:alice/alice.github.io.git` gives `alice/alicehub.io` | remove only a trailing `.git`, giving `alice/alice.github.io` | medium; not executed | RepoSlug.PagesRepositoryMangled | RepoSlug.SlugOfSsh |
| scripts/replace_posters.py:104 | `.split(":")[-1]` keeps everything after the scheme of an HTTPS remote | origin `https://github.com/o/r.git` gives `//github.com/o/r` | the path after the host, `o/r` | medium; not executed | RepoSlug.SlugAsWrittenHttps | RepoSlug.SlugOfHttps |

=== FILE: assignment.dfy ===
/** The per-world poster assignment. The pool arrives already shuffled
    (`available`); each slot has the hash of the image it holds now, or
    `None` when the slot file does not exist. Slots are served in order:

    - primary pass: the first candidate whose hash is unused in this world
      and differs from the slot's previous hash;
    - fallback pass, only when the primary pass finds nothing: the first
      candidate whose hash is unused;
    - when both passes fail the selection stops, and the world is skipped.

    Hashes are opaque values compared for equality. */
module Assignment {

  datatype Option<T> = None | Some(value: T)

  /** A pool entry: file name and content hash. */
  datatype Image<H> = Image(name: string, hash: H)

  /** One slot's pick: the position in `available`, the entry there, and
      whether the fallback pass produced it (the run logs a warning). */
  datatype Pick<H> = Pick(index: nat, image: Image<H>, fallback: bool)

  /** The distinct hashes of a sequence of images. */
  function Hashes<H(==)>(images: seq<Image<H>>): set<H> {
    set i | 0 <= i < |images| :: images[i].hash
  }

  /** The images of the picks, in order. */
  function ImagesOf<H(==)>(picks: seq<Pick<H>>): seq<Image<H>> {
    seq(|picks|, k requires 0 <= k < |picks| => picks[k].image)
  }

  /** The primary test: the hash is not yet used in this world and differs
      from the slot's previous hash. With `strict` false only the first half
      (the fallback test). A `None` previous hash never equals a pool hash. */
  predicate Eligible<H(==)>(c: Image<H>, used: set<H>, prev: Option<H>, strict: bool) {
    c.hash !in used && (!strict || prev != Some(c.hash))
  }

  /** The first position at or after `from` holding an eligible candidate:
      one pass of the inner `for fname, h in available` loop. */
  function FindFrom<H(==)>(available: seq<Image<H>>, used: set<H>, prev: Option<H>, strict: bool, from: nat): (r: Option<nat>)
    requires from <= |available|
    ensures r.Some? ==> from <= r.value < |available| && Eligible(available[r.value], used, prev, strict)
    ensures r.Some? ==> forall j :: from <= j < r.value ==> !Eligible(available[j], used, prev, strict)
    ensures r.None? ==> forall j :: from <= j < |available| ==> !Eligible(available[j], used, prev, strict)
    decreases |available| - from
  {
    if from == |available| then None
    else if Eligible(available[from], used, prev, strict) then Some(from)
    else FindFrom(available, used, prev, strict, from + 1)
  }

  /** The reference description of a correct pick for one slot: either the
      first candidate passing the strict test, or, when no candidate passes
      it, the first candidate whose hash is unused. */
  predicate IsFirstPick<H(==)>(available: seq<Image<H>>, used: set<H>, prev: Option<H>, p: Pick<H>) {
    && p.index < |available|
    && p.image == available[p.index]
    && Eligible(p.image, used, prev, !p.fallback)
    && (forall j :: 0 <= j < p.index ==> !Eligible(available[j], used, prev, !p.fallback))
    && (p.fallback ==> forall j :: 0 <= j < |available| ==> !Eligible(available[j], used, prev, true))
  }

  /** Both passes for one slot. */
  function PickFor<H(==)>(available: seq<Image<H>>, used: set<H>, prev: Option<H>): (r: Option<Pick<H>>)
    ensures r.Some? ==> IsFirstPick(available, used, prev, r.value)
    ensures r.None? <==> forall j :: 0 <= j < |available| ==> available[j].hash in used
  {
    match FindFrom(available, used, prev, true, 0)
    case Some(i) => Some(Pick(i, available[i], false))
    case None =>
      match FindFrom(available, used, prev, false, 0)
      case Some(i) => Some(Pick(i, available[i], true))
      case None => None
  }

  /** The picks for the slots with previous hashes `prevs`, given the hashes
      `used` so far, up to the first slot for which both passes fail. */
  function Select<H>(available: seq<Image<H>>, prevs: seq<Option<H>>, used: set<H>): (picks: seq<Pick<H>>)
    ensures |picks| <= |prevs|
    decreases |prevs|
  {
    if |prevs| == 0 then []
    else
      match PickFor(available, used, prevs[0])
      case None => []
      case Some(p) => [p] + Select(available, prevs[1..], used + {p.image.hash})
  }

  /** Each pick is the correct pick for its slot given the hashes used before
      it, and the selection stops short only when every pool hash is used. */
  lemma SelectSpec<H>(available: seq<Image<H>>, prevs: seq<Option<H>>, used: set<H>)
    ensures forall k :: 0 <= k < |Select(available, prevs, used)| ==>
      IsFirstPick(available, used + Hashes(ImagesOf(Select(available, prevs, used)[..k])), prevs[k], Select(available, prevs, used)[k])
    ensures |Select(available, prevs, used)| < |prevs| ==>
      forall j :: 0 <= j < |available| ==> available[j].hash in used + Hashes(ImagesOf(Select(available, prevs, used)))
  {
    SelectPicksFirst(available, prevs, used);
    SelectStopsExhausted(available, prevs, used);
  }

  lemma {:induction false} SelectPicksFirst<H>(available: seq<Image<H>>, prevs: seq<Option<H>>, used: set<H>)
    ensures forall k :: 0 <= k < |Select(available, prevs, used)| ==>
      IsFirstPick(available, used + Hashes(ImagesOf(Select(available, prevs, used)[..k])), prevs[k], Select(available, prevs, used)[k])
    decreases |prevs|
  {
    var picks := Select(available, prevs, used);
    if |prevs| > 0 && PickFor(available, used, prevs[0]).Some? {
      var p := PickFor(available, used, prevs[0]).value;
      var used' := used + {p.image.hash};
      var rest := Select(available, prevs[1..], used');
      SelectPicksFirst(available, prevs[1..], used');
      assert picks == [p] + rest;
      forall k | 0 <= k < |picks|
        ensures IsFirstPick(available, used + Hashes(ImagesOf(picks[..k])), prevs[k], picks[k])
      {
        if k == 0 {
          assert Hashes(ImagesOf(picks[..0])) == {};
        } else {
          FirstPickShift(available, used, prevs, p, rest, k);
        }
      }
    }
  }

  lemma {:induction false} SelectStopsExhausted<H>(available: seq<Image<H>>, prevs: seq<Option<H>>, used: set<H>)
    ensures |Select(available, prevs, used)| < |prevs| ==>
      forall j :: 0 <= j < |available| ==> available[j].hash in used + Hashes(ImagesOf(Select(available, prevs, used)))
    decreases |prevs|
  {
    var picks := Select(available, prevs, used);
    if |prevs| > 0 {
      match PickFor(available, used, prevs[0])
      case None =>
        assert picks == [];
        assert Hashes(ImagesOf(picks)) == {};
      case Some(p) =>
        var used' := used + {p.image.hash};
        var rest := Select(available, prevs[1..], used');
        SelectStopsExhausted(available, prevs[1..], used');
        assert picks == [p] + rest;
        if |picks| < |prevs| {
          UsedAfterFirst(p, rest, used, |picks|);
          assert picks[..|picks|] == picks && rest[..|rest|] == rest;
        }
    }
  }

  /** A correct pick for slot `k - 1` of the rest, after `p`, is a correct
      pick for slot `k` of the whole selection. */
  lemma FirstPickShift<H>(available: seq<Image<H>>, used: set<H>, prevs: seq<Option<H>>, p: Pick<H>, rest: seq<Pick<H>>, k: nat)
    requires 0 < k <= |rest| && k < |prevs|
    requires IsFirstPick(available, (used + {p.image.hash}) + Hashes(ImagesOf(rest[..k - 1])), prevs[1..][k - 1], rest[k - 1])
    ensures IsFirstPick(available, used + Hashes(ImagesOf(([p] + rest)[..k])), prevs[k], ([p] + rest)[k])
  {
    UsedAfterFirst(p, rest, used, k);
    assert ([p] + rest)[k] == rest[k - 1];
  }

  /** The hashes used before slot `k` of a selection that starts with `p`
      are those used before slot `k - 1` of the rest, plus `p`'s hash. */
  lemma UsedAfterFirst<H>(p: Pick<H>, rest: seq<Pick<H>>, used: set<H>, k: nat)
    requires 0 < k <= |rest| + 1
    ensures used + Hashes(ImagesOf(([p] + rest)[..k])) == (used + {p.image.hash}) + Hashes(ImagesOf(rest[..k - 1]))
  {
    HashesCons(p, rest[..k - 1]);
    assert ([p] + rest)[..k] == [p] + rest[..k - 1];
  }

  lemma HashesCons<H>(p: Pick<H>, rest: seq<Pick<H>>)
    ensures Hashes(ImagesOf([p] + rest)) == {p.image.hash} + Hashes(ImagesOf(rest))
  {
    var all := ImagesOf([p] + rest);
    var tail := ImagesOf(rest);
    forall h | h in Hashes(all)
      ensures h in {p.image.hash} + Hashes(tail)
    {
      var i :| 0 <= i < |all| && all[i].hash == h;
      if i > 0 {
        assert tail[i - 1].hash == h;
      }
    }
    forall h | h in Hashes(tail)
      ensures h in Hashes(all)
    {
      var i :| 0 <= i < |tail| && tail[i].hash == h;
      assert all[i + 1].hash == h;
    }
    assert all[0].hash == p.image.hash;
  }

  // ---------------------------------------------------------------------------
  // Cardinality facts about finite sets
  // ---------------------------------------------------------------------------

  lemma SubsetCard<T>(a: set<T>, b: set<T>)
    requires a <= b
    ensures |a| <= |b|
    ensures |a| == |b| ==> a == b
  {
    assert b == a + (b - a);
    assert a * (b - a) == {};
    if |a| == |b| {
      assert |b - a| == 0;
    }
  }

  lemma DiffCard<T>(a: set<T>, b: set<T>)
    ensures |a - b| >= |a| - |b|
  {
    assert a == (a - b) + (a * b);
    assert (a - b) * (a * b) == {};
    SubsetCard(a * b, b);
  }

  // ---------------------------------------------------------------------------
  // What the selection achieves
  // ---------------------------------------------------------------------------

  /** The picks, never more than the slots, hold pairwise distinct hashes that
      are all outside `used`; every pick comes from `available`; and a pick
      that the primary pass produced differs from its slot's previous hash. */
  lemma SelectProperties<H>(available: seq<Image<H>>, prevs: seq<Option<H>>, used: set<H>)
    ensures var picks := Select(available, prevs, used);
      && (forall k :: 0 <= k < |picks| ==> picks[k].index < |available| && available[picks[k].index] == picks[k].image)
      && (forall k :: 0 <= k < |picks| ==> picks[k].image.hash !in used)
      && (forall i, k :: 0 <= i < k < |picks| ==> picks[i].image.hash != picks[k].image.hash)
      && (forall k :: 0 <= k < |picks| && !picks[k].fallback ==> prevs[k] != Some(picks[k].image.hash))
  {
    var picks := Select(available, prevs, used);
    SelectSpec(available, prevs, used);
    forall i, k | 0 <= i < k < |picks|
      ensures picks[i].image.hash != picks[k].image.hash
    {
      assert ImagesOf(picks[..k])[i] == picks[i].image;
      assert picks[i].image.hash in Hashes(ImagesOf(picks[..k]));
    }
  }

  /** With `used` drawn from the pool, the selection serves exactly as many
      slots as there are unused distinct hashes, up to the number of slots. */
  lemma {:induction false} SelectLength<H>(available: seq<Image<H>>, prevs: seq<Option<H>>, used: set<H>)
    requires used <= Hashes(available)
    ensures |Select(available, prevs, used)| ==
      if |prevs| <= |Hashes(available)| - |used| then |prevs| else |Hashes(available)| - |used|
    decreases |prevs|
  {
    SubsetCard(used, Hashes(available));
    if |prevs| > 0 {
      match PickFor(available, used, prevs[0])
      case None =>
        assert Hashes(available) <= used;
        assert Hashes(available) == used;
        assert Select(available, prevs, used) == [];
      case Some(p) =>
        var h := p.image.hash;
        assert available[p.index].hash == h;
        SubsetCard(used + {h}, Hashes(available));
        SelectLength(available, prevs[1..], used + {h});
    }
  }

  /** If the pool holds at least one distinct hash more than the slots still
      to serve, every slot is served by the primary pass: no previous image
      is repeated and no warning is logged. */
  lemma {:induction false} SpareImageAvoidsFallback<H>(available: seq<Image<H>>, prevs: seq<Option<H>>, used: set<H>)
    requires used <= Hashes(available)
    requires |Hashes(available)| > |used| + |prevs|
    ensures |Select(available, prevs, used)| == |prevs|
    ensures forall k :: 0 <= k < |prevs| ==> !Select(available, prevs, used)[k].fallback
    decreases |prevs|
  {
    SelectLength(available, prevs, used);
    if |prevs| > 0 {
      PrimaryServes(available, used, prevs[0]);
      var p := PickFor(available, used, prevs[0]).value;
      var used' := used + {p.image.hash};
      assert p.image.hash in Hashes(available);
      SpareImageAvoidsFallback(available, prevs[1..], used');
      assert Select(available, prevs, used) == [p] + Select(available, prevs[1..], used');
    }
  }

  /** With two or more unused distinct hashes in the pool, the primary pass
      serves the slot whatever its previous hash. */
  lemma PrimaryServes<H>(available: seq<Image<H>>, used: set<H>, prev: Option<H>)
    requires used <= Hashes(available)
    requires |Hashes(available)| > |used| + 1
    ensures PickFor(available, used, prev).Some?
    ensures !PickFor(available, used, prev).value.fallback
  {
    var excluded := used + (if prev.Some? then {prev.value} else {});
    DiffCard(Hashes(available), excluded);
    var h :| h in Hashes(available) - excluded;
    var j :| 0 <= j < |available| && available[j].hash == h;
    assert Eligible(available[j], used, prev, true);
  }

  /** The selection is greedy, slot by slot: with shuffled pool `[B, A]`, a
      missing first slot and a second slot that holds A, the first slot takes
      B and the second falls back to A, its old image, although A for the
      first slot and B for the second would have repeated nothing. */
  lemma GreedyRepeatsAvoidable()
    ensures Select([Image("B", 2), Image("A", 1)], [None, Some(1)], {})
      == [Pick(0, Image("B", 2), false), Pick(1, Image("A", 1), true)]
    ensures Eligible(Image("A", 1), {}, None, true) && Eligible(Image("B", 2), {1}, Some(1), true)
  {
  }

  /** Shuffling the pool does not change its distinct hashes. */
  lemma ShuffleKeepsHashes<H>(pool: seq<Image<H>>, shuffled: seq<Image<H>>)
    requires multiset(shuffled) == multiset(pool)
    ensures Hashes(shuffled) == Hashes(pool)
  {
    forall h | h in Hashes(pool)
      ensures h in Hashes(shuffled)
    {
      var i :| 0 <= i < |pool| && pool[i].hash == h;
      assert pool[i] in multiset(shuffled);
      var j :| 0 <= j < |shuffled| && shuffled[j] == pool[i];
    }
    forall h | h in Hashes(shuffled)
      ensures h in Hashes(pool)
    {
      var j :| 0 <= j < |shuffled| && shuffled[j].hash == h;
      assert shuffled[j] in multiset(pool);
      var i :| 0 <= i < |pool| && pool[i] == shuffled[j];
    }
  }

  /** What a complete selection for one world guarantees: one pick per slot,
      each from the pool, with pairwise distinct hashes; a pick made by the
      primary pass differs from its slot's previous hash; and every pick is
      the first correct one in shuffled order given the hashes used before. */
  ghost predicate ValidSelection<H>(pool: seq<Image<H>>, available: seq<Image<H>>, prevs: seq<Option<H>>, picks: seq<Pick<H>>) {
    && |picks| == |prevs|
    && (forall k :: 0 <= k < |picks| ==> picks[k].image in pool)
    && (forall i, k :: 0 <= i < k < |picks| ==> picks[i].image.hash != picks[k].image.hash)
    && (forall k :: 0 <= k < |picks| && !picks[k].fallback ==> prevs[k] != Some(picks[k].image.hash))
    && (forall k :: 0 <= k < |picks| ==> IsFirstPick(available, Hashes(ImagesOf(picks[..k])), prevs[k], picks[k]))
  }

  /** One world's selection (`used_hashes` starts empty for every world):
      `Some` with one pick per slot, or `None` when the pool ran out and the
      world is skipped. It is complete exactly when the pool holds at least
      as many distinct hashes as the world has slots, whatever the shuffle. */
  function Assign<H(==)>(pool: seq<Image<H>>, available: seq<Image<H>>, prevs: seq<Option<H>>): (r: Option<seq<Pick<H>>>)
    requires multiset(available) == multiset(pool)
    ensures r.Some? <==> |Hashes(pool)| >= |prevs|
    ensures r.Some? ==> ValidSelection(pool, available, prevs, r.value)
  {
    var picks := Select(available, prevs, {});
    ShuffleKeepsHashes(pool, available);
    SelectLength(available, prevs, {});
    if |picks| < |prevs| then None
    else
      CompleteIsValid(pool, available, prevs);
      Some(picks)
  }

  /** A complete selection from a shuffle of the pool is valid. */
  lemma CompleteIsValid<H>(pool: seq<Image<H>>, available: seq<Image<H>>, prevs: seq<Option<H>>)
    requires multiset(available) == multiset(pool)
    requires |Select(available, prevs, {})| == |prevs|
    ensures ValidSelection(pool, available, prevs, Select(available, prevs, {}))
  {
    var picks := Select(available, prevs, {});
    SelectProperties(available, prevs, {});
    SelectSpec(available, prevs, {});
    forall k | 0 <= k < |picks|
      ensures picks[k].image in pool
    {
      assert picks[k].image == available[picks[k].index];
      assert picks[k].image in multiset(available);
    }
    assert forall k :: 0 <= k < |picks| ==>
      {} + Hashes(ImagesOf(picks[..k])) == Hashes(ImagesOf(picks[..k]));
  }

  // ---------------------------------------------------------------------------
  // The nested loops of the source, step by step
  // ---------------------------------------------------------------------------

  lemma HashesSnoc<H>(images: seq<Image<H>>, c: Image<H>)
    ensures Hashes(images + [c]) == Hashes(images) + {c.hash}
  {
    var all := images + [c];
    forall h | h in Hashes(images)
      ensures h in Hashes(all)
    {
      var i :| 0 <= i < |images| && images[i].hash == h;
      assert all[i].hash == h;
    }
    assert all[|images|].hash == c.hash;
  }

  /** One inner `for fname, h in available` loop: the position of the first
      eligible candidate, or `None` when the loop runs out. */
  method Scan<H(==)>(available: seq<Image<H>>, used: set<H>, prev: Option<H>, strict: bool) returns (r: Option<nat>)
    ensures r.Some? ==> r.value < |available| && Eligible(available[r.value], used, prev, strict)
    ensures r == FindFrom(available, used, prev, strict, 0)
  {
    var j := 0;
    while j < |available|
      invariant 0 <= j <= |available|
      invariant forall i :: 0 <= i < j ==> !Eligible(available[i], used, prev, strict)
    {
      var c := available[j];
      if c.hash !in used && (!strict || prev != Some(c.hash)) {
        return Some(j);
      }
      j := j + 1;
    }
    return None;
  }

  /** Serving slot `idx` moves its pick from the rest of the selection to
      the part already taken. */
  lemma SelectStep<H>(available: seq<Image<H>>, prevs: seq<Option<H>>, idx: nat, taken: seq<Pick<H>>, used: set<H>, p: Pick<H>)
    requires idx < |prevs|
    requires Select(available, prevs, {}) == taken + Select(available, prevs[idx..], used)
    requires PickFor(available, used, prevs[idx]) == Some(p)
    ensures Select(available, prevs, {}) == (taken + [p]) + Select(available, prevs[idx + 1..], used + {p.image.hash})
  {
    var tail := prevs[idx..];
    assert tail[0] == prevs[idx];
    assert tail[1..] == prevs[idx + 1..];
    assert Select(available, tail, used) == [p] + Select(available, tail[1..], used + {p.image.hash});
  }

  /** When both passes fail for slot `idx`, the selection ends there. */
  lemma SelectStop<H>(available: seq<Image<H>>, prevs: seq<Option<H>>, idx: nat, taken: seq<Pick<H>>, used: set<H>)
    requires idx < |prevs|
    requires Select(available, prevs, {}) == taken + Select(available, prevs[idx..], used)
    requires PickFor(available, used, prevs[idx]).None?
    ensures Select(available, prevs, {}) == taken
  {
    var tail := prevs[idx..];
    assert tail[0] == prevs[idx];
    assert Select(available, tail, used) == [];
  }

  lemma ImagesOfSnoc<H>(picks: seq<Pick<H>>, p: Pick<H>)
    ensures ImagesOf(picks + [p]) == ImagesOf(picks) + [p.image]
  {
  }

  /** The positions of the picks made by the fallback pass, in order. */
  function FallbackSlots<H>(picks: seq<Pick<H>>): seq<nat> {
    if |picks| == 0 then []
    else
      var n := |picks| - 1;
      FallbackSlots(picks[..n]) + (if picks[n].fallback then [n] else [])
  }

  lemma FallbackSlotsSnoc<H>(picks: seq<Pick<H>>, p: Pick<H>)
    ensures FallbackSlots(picks + [p]) == FallbackSlots(picks) + (if p.fallback then [|picks|] else [])
  {
    assert (picks + [p])[..|picks|] == picks;
  }

  lemma {:induction false} FallbackSlotsSpec<H>(picks: seq<Pick<H>>)
    ensures forall k :: k in FallbackSlots(picks) <==> 0 <= k < |picks| && picks[k].fallback
  {
    if |picks| > 0 {
      var n := |picks| - 1;
      FallbackSlotsSpec(picks[..n]);
      forall k
        ensures k in FallbackSlots(picks) <==> 0 <= k < |picks| && picks[k].fallback
      {
        if 0 <= k < n {
          assert picks[..n][k] == picks[k];
        }
      }
    }
  }

  /** The outcome of the two scans for one slot, read as `PickFor`: `found`
      comes from the fallback pass exactly when the primary pass failed. */
  lemma PickForOutcome<H>(available: seq<Image<H>>, used: set<H>, prev: Option<H>, fallback: bool, found: Option<nat>)
    requires fallback <==> FindFrom(available, used, prev, true, 0).None?
    requires found == FindFrom(available, used, prev, !fallback, 0)
    ensures found.None? <==> PickFor(available, used, prev).None?
    ensures found.Some? ==> found.value < |available|
    ensures found.Some? ==> PickFor(available, used, prev) == Some(Pick(found.value, available[found.value], fallback))
  {
  }

  /** The state of the slot loop after `idx` slots were served: `taken`
      are the picks so far, `selected` their images, `used` their hashes,
      `warned` the slots the fallback pass served, and the rest of the
      selection is what `Select` makes of the remaining slots. */
  ghost predicate Serving<H>(available: seq<Image<H>>, currentHashes: seq<Option<H>>, idx: int,
                             taken: seq<Pick<H>>, selected: seq<Image<H>>, used: set<H>, warned: seq<nat>) {
    && 0 <= idx <= |currentHashes|
    && |taken| == idx
    && selected == ImagesOf(taken)
    && used == Hashes(selected)
    && Select(available, currentHashes, {}) == taken + Select(available, currentHashes[idx..], used)
    && warned == FallbackSlots(taken)
  }

  lemma ServingStart<H>(available: seq<Image<H>>, currentHashes: seq<Option<H>>)
    ensures Serving(available, currentHashes, 0, [], [], {}, [])
  {
    assert currentHashes[0..] == currentHashes;
    var none: seq<Image<H>> := [];
    assert Hashes(none) == {};
  }

  /** Serving one more slot with pick `p` keeps the loop state: the pick,
      its image and its hash are appended, and the slot is warned exactly
      when the fallback pass served it. */
  lemma SelectAdvance<H>(available: seq<Image<H>>, currentHashes: seq<Option<H>>, idx: nat, taken: seq<Pick<H>>,
                         selected: seq<Image<H>>, used: set<H>, warned: seq<nat>, p: Pick<H>, warned': seq<nat>)
    requires Serving(available, currentHashes, idx, taken, selected, used, warned)
    requires idx < |currentHashes|
    requires PickFor(available, used, currentHashes[idx]) == Some(p)
    requires warned' == warned + (if p.fallback then [idx] else [])
    ensures Serving(available, currentHashes, idx + 1, taken + [p], selected + [p.image], used + {p.image.hash}, warned')
  {
    SelectStep(available, currentHashes, idx, taken, used, p);
    ImagesOfSnoc(taken, p);
    HashesSnoc(selected, p.image);
    FallbackSlotsSnoc(taken, p);
  }

  /** One slot: the primary pass, then the fallback pass when the primary
      pass found nothing. `missed` reports that the primary pass failed,
      which is when the run logs a warning for the slot. */
  method ServeSlot<H(==)>(available: seq<Image<H>>, used: set<H>, prev: Option<H>)
    returns (step: Option<Pick<H>>, missed: bool)
    ensures step == PickFor(available, used, prev)
    ensures missed <==> step.None? || step.value.fallback
  {
    var found := Scan(available, used, prev, true);
    missed := found.None?;
    if missed {
      found := Scan(available, used, prev, false);
    }
    PickForOutcome(available, used, prev, missed, found);
    if found.None? {
      return None, missed;
    }
    step := Some(Pick(found.value, available[found.value], missed));
  }

  /** `warned` holds exactly the slots the fallback pass served, plus the
      slot at which the selection stopped, if it stopped early. */
  ghost predicate WarnedExactly<H>(available: seq<Image<H>>, currentHashes: seq<Option<H>>, warned: seq<nat>) {
    forall k :: k in warned <==>
      var picks := Select(available, currentHashes, {});
      (0 <= k < |picks| && picks[k].fallback) || k == |picks| < |currentHashes|
  }

  /** The warned slots: those the fallback pass served, and the slot at
      which the selection stopped, if it stopped early. */
  lemma WarnedSlots<H>(available: seq<Image<H>>, currentHashes: seq<Option<H>>, warned: seq<nat>)
    requires var picks := Select(available, currentHashes, {});
      warned == FallbackSlots(picks) + (if |picks| < |currentHashes| then [|picks|] else [])
    ensures WarnedExactly(available, currentHashes, warned)
  {
    FallbackSlotsSpec(Select(available, currentHashes, {}));
  }

  /** When both passes fail at slot `idx`, the selection ends with the
      picks taken so far, and the warnings logged, this slot's included, are
      the ones `SelectPosters` promises. */
  lemma StopWarned<H>(available: seq<Image<H>>, currentHashes: seq<Option<H>>, idx: nat, taken: seq<Pick<H>>,
                      selected: seq<Image<H>>, used: set<H>, warned: seq<nat>, warned': seq<nat>)
    requires Serving(available, currentHashes, idx, taken, selected, used, warned)
    requires idx < |currentHashes|
    requires PickFor(available, used, currentHashes[idx]).None?
    requires warned' == warned + [idx]
    ensures selected == ImagesOf(Select(available, currentHashes, {}))
    ensures WarnedExactly(available, currentHashes, warned')
  {
    SelectStop(available, currentHashes, idx, taken, used);
    WarnedSlots(available, currentHashes, warned');
  }

  /** When every slot was served, the loop state is the whole selection. */
  lemma ServedAll<H>(available: seq<Image<H>>, currentHashes: seq<Option<H>>, taken: seq<Pick<H>>,
                     selected: seq<Image<H>>, used: set<H>, warned: seq<nat>)
    requires Serving(available, currentHashes, |currentHashes|, taken, selected, used, warned)
    ensures selected == ImagesOf(Select(available, currentHashes, {}))
    ensures WarnedExactly(available, currentHashes, warned)
  {
    assert currentHashes[|currentHashes|..] == [];
    assert Select(available, currentHashes, {}) == taken;
    WarnedSlots(available, currentHashes, warned);
  }

  /** The slot loop: `selected` and `used_hashes` grow together, one entry per
      served slot; `warned` lists the slots for which the primary pass found
      nothing (the fallback was tried). The loop agrees with `Select`. */
  method SelectPosters<H(==)>(available: seq<Image<H>>, currentHashes: seq<Option<H>>)
    returns (selected: seq<Image<H>>, warned: seq<nat>)
    ensures selected == ImagesOf(Select(available, currentHashes, {}))
    ensures WarnedExactly(available, currentHashes, warned)
  {
    ghost var taken: seq<Pick<H>> := [];
    var used: set<H> := {};
    selected := [];
    warned := [];
    var idx := 0;
    ServingStart(available, currentHashes);
    while idx < |currentHashes|
      invariant 0 <= idx <= |currentHashes|
      invariant Serving(available, currentHashes, idx, taken, selected, used, warned)
    {
      ghost var before := warned;
      var step, missed := ServeSlot(available, used, currentHashes[idx]);
      if missed {
        var slot: nat := idx;
        warned := warned + [slot];
      }
      if step.None? {
        StopWarned(available, currentHashes, idx, taken, selected, used, before, warned);
        return;
      }
      var p := step.value;
      SelectAdvance(available, currentHashes, idx, taken, selected, used, before, p, warned);
      taken := taken + [p];
      selected := selected + [p.image];
      used := used + {p.image.hash};
      idx := idx + 1;
    }
    ServedAll(available, currentHashes, taken, selected, used, warned);
  }
}

=== FILE: poster_files.dfy ===
/** Poster slots of a world directory: the entries named `poster<digits>.png`,
    ordered by the number between `poster` and `.png`. Listing the directory
    is I/O; the model starts from the listing, in the order it was returned. */
module PosterFiles {
  import opened Text

  /** ASCII digits. Python's `str.isdigit` also accepts other Unicode digits;
      the model keeps to `0`-`9`. */
  predicate IsDigit(c: char) {
    '0' <= c <= '9'
  }

  /** Python's `s.isdigit()`: non-empty and all digits. */
  predicate IsDigits(s: string) {
    |s| > 0 && forall k :: 0 <= k < |s| ==> IsDigit(s[k])
  }

  /** The name without its first six and its last four characters, as a
      Python slice gives it: empty when the name is shorter than ten. */
  function Middle(name: string): (m: string)
    ensures |name| >= 10 ==> name == name[..6] + m + name[|name| - 4..]
    ensures |name| < 10 ==> m == []
  {
    if |name| >= 10 then name[6..|name| - 4] else []
  }

  /** The filter on each directory entry. */
  predicate IsPosterName(name: string) {
    StartsWith(name, "poster") && EndsWith(name, ".png") && IsDigits(Middle(name))
  }

  type PosterName = s: string | IsPosterName(s) witness "poster1.png"

  /** The filter accepts exactly the names `poster` + digits + `.png`. */
  lemma PosterNameShape(name: string)
    ensures IsPosterName(name) <==> exists d :: IsDigits(d) && name == "poster" + d + ".png"
  {
    if IsPosterName(name) {
      var d := Middle(name);
      assert name == "poster" + d + ".png";
    }
    if d :| IsDigits(d) && name == "poster" + d + ".png" {
      assert |name| >= 10;
      assert name[..6] == "poster";
      assert name[|name| - 4..] == ".png";
      assert Middle(name) == d;
    }
  }

  function DigitValue(c: char): (v: nat)
    requires IsDigit(c)
    ensures v < 10
  {
    c as int - '0' as int
  }

  function DigitChar(v: nat): (c: char)
    requires v < 10
    ensures IsDigit(c) && DigitValue(c) == v
  {
    ('0' as int + v) as char
  }

  /** Python's `int(d)` on a string of ASCII digits. Leading zeros do not
      change the value, so `poster1.png` and `poster01.png` share a key. */
  function Number(d: string): (v: nat)
    requires forall k :: 0 <= k < |d| ==> IsDigit(d[k])
    ensures |d| > 0 && d[0] == '0' ==> v == Number(d[1..])
  {
    if |d| == 0 then 0
    else
      var init := d[..|d| - 1];
      assert |init| > 0 ==> init[1..] == d[1..][..|d| - 2];
      10 * Number(init) + DigitValue(d[|d| - 1])
  }

  /** The sort key: the number written between `poster` and `.png`. */
  function Key(name: PosterName): nat {
    Number(Middle(name))
  }

  /** The canonical decimal rendering of `n`, the inverse of `Number`. */
  function Decimal(n: nat): (d: string)
    ensures IsDigits(d)
    decreases n
  {
    if n < 10 then [DigitChar(n)] else Decimal(n / 10) + [DigitChar(n % 10)]
  }

  lemma {:induction false} NumberOfDecimal(n: nat)
    ensures Number(Decimal(n)) == n
    decreases n
  {
    var d := Decimal(n);
    if n < 10 {
      assert d[..0] == [];
    } else {
      assert d[..|d| - 1] == Decimal(n / 10);
      NumberOfDecimal(n / 10);
    }
  }

  /** The slot file name for poster number `n`: `poster<n>.png`. */
  function SlotName(n: nat): string {
    "poster" + Decimal(n) + ".png"
  }

  /** Every canonical slot name passes the filter and sorts by its number. */
  lemma SlotNameKey(n: nat)
    ensures IsPosterName(SlotName(n))
    ensures Key(SlotName(n)) == n
  {
    PosterNameShape(SlotName(n));
    PosterNameMiddle(Decimal(n));
    NumberOfDecimal(n);
  }

  lemma PosterNameMiddle(d: string)
    ensures Middle("poster" + d + ".png") == d
  {
    var name := "poster" + d + ".png";
    assert name[6..|name| - 4] == d;
  }

  // ---------------------------------------------------------------------------
  // Stable sort by a key (Python's `list.sort` is stable)
  // ---------------------------------------------------------------------------

  predicate Sorted<T>(s: seq<T>, key: T -> int) {
    forall i, j :: 0 <= i < j < |s| ==> key(s[i]) <= key(s[j])
  }

  /** The entries of `s` whose key is `k`, in their order in `s`. */
  function WithKey<T>(s: seq<T>, key: T -> int, k: int): seq<T> {
    if |s| == 0 then []
    else (if key(s[0]) == k then [s[0]] else []) + WithKey(s[1..], key, k)
  }

  lemma {:induction false} WithKeyAppend<T>(a: seq<T>, b: seq<T>, key: T -> int, k: int)
    ensures WithKey(a + b, key, k) == WithKey(a, key, k) + WithKey(b, key, k)
  {
    if |a| == 0 {
      assert a + b == b;
    } else {
      var head := if key(a[0]) == k then [a[0]] else [];
      assert (a + b)[0] == a[0];
      assert (a + b)[1..] == a[1..] + b;
      WithKeyAppend(a[1..], b, key, k);
      calc {
        WithKey(a + b, key, k);
        head + WithKey(a[1..] + b, key, k);
        head + (WithKey(a[1..], key, k) + WithKey(b, key, k));
        { ConcatAssoc(head, WithKey(a[1..], key, k), WithKey(b, key, k)); }
        (head + WithKey(a[1..], key, k)) + WithKey(b, key, k);
        WithKey(a, key, k) + WithKey(b, key, k);
      }
    }
  }

  lemma {:induction false} WithKeyAbove<T>(s: seq<T>, key: T -> int, k: int)
    requires forall i :: 0 <= i < |s| ==> key(s[i]) > k
    ensures WithKey(s, key, k) == []
  {
    if |s| > 0 {
      WithKeyAbove(s[1..], key, k);
    }
  }

  lemma ConsSorted<T>(h: T, s: seq<T>, key: T -> int)
    requires Sorted(s, key)
    requires forall i :: 0 <= i < |s| ==> key(h) <= key(s[i])
    ensures Sorted([h] + s, key)
  {
  }

  /** Inserts `x` after every entry whose key is at most `x`'s key. */
  function Insert<T>(x: T, t: seq<T>, key: T -> int): (r: seq<T>)
    ensures |r| == |t| + 1
    ensures multiset(r) == multiset(t) + multiset{x}
  {
    if |t| == 0 then [x]
    else if key(x) < key(t[0]) then [x] + t
    else
      assert t == [t[0]] + t[1..];
      [t[0]] + Insert(x, t[1..], key)
  }

  /** Insertion into a sorted sequence keeps it sorted, and every entry of
      the result is `x` or comes from `t`. */
  lemma {:induction false} InsertSorted<T>(x: T, t: seq<T>, key: T -> int)
    requires Sorted(t, key)
    ensures Sorted(Insert(x, t, key), key)
    ensures forall i :: 0 <= i < |Insert(x, t, key)| ==> key(Insert(x, t, key)[i]) >= key(x) || key(Insert(x, t, key)[i]) >= (if |t| == 0 then key(x) else key(t[0]))
  {
    if |t| == 0 {
    } else if key(x) < key(t[0]) {
      ConsSorted(x, t, key);
    } else {
      var rest := Insert(x, t[1..], key);
      InsertSorted(x, t[1..], key);
      assert forall i :: 0 <= i < |rest| ==> key(t[0]) <= key(rest[i]);
      ConsSorted(t[0], rest, key);
    }
  }

  lemma WithKeySingle<T>(x: T, key: T -> int, k: int)
    ensures WithKey([x], key, k) == if key(x) == k then [x] else []
  {
    assert [x][1..] == [];
  }

  /** Insertion keeps the relative order of entries with equal keys, and
      puts `x` after the ones already there. */
  lemma {:induction false} InsertStable<T>(x: T, t: seq<T>, key: T -> int, k: int)
    requires Sorted(t, key)
    ensures WithKey(Insert(x, t, key), key, k) == WithKey(t, key, k) + WithKey([x], key, k)
  {
    if |t| == 0 {
      WithKeySingle(x, key, k);
      assert Insert(x, t, key) == [x];
    } else if key(x) < key(t[0]) {
      InsertStableFront(x, t, key, k);
    } else {
      InsertStable(x, t[1..], key, k);
      InsertStableBehind(x, t, key, k);
    }
  }

  /** An entry inserted in front of a sorted sequence comes after every
      entry with its own key. */
  lemma InsertStableFront<T>(x: T, t: seq<T>, key: T -> int, k: int)
    requires Sorted(t, key) && |t| > 0 && key(x) < key(t[0])
    ensures WithKey(Insert(x, t, key), key, k) == WithKey(t, key, k) + WithKey([x], key, k)
  {
    WithKeySingle(x, key, k);
    assert Insert(x, t, key) == [x] + t;
    WithKeyAppend([x], t, key, k);
    if key(x) == k {
      WithKeyAbove(t, key, k);
    }
  }

  /** Inserting behind the first entry keeps it first. */
  lemma InsertStableBehind<T>(x: T, t: seq<T>, key: T -> int, k: int)
    requires |t| > 0 && key(x) >= key(t[0])
    requires WithKey(Insert(x, t[1..], key), key, k) == WithKey(t[1..], key, k) + WithKey([x], key, k)
    ensures WithKey(Insert(x, t, key), key, k) == WithKey(t, key, k) + WithKey([x], key, k)
  {
    var rest := Insert(x, t[1..], key);
    var head: seq<T> := if key(t[0]) == k then [t[0]] else [];
    var u := [t[0]] + rest;
    assert Insert(x, t, key) == u;
    assert u[0] == t[0] && u[1..] == rest;
    calc {
      WithKey(u, key, k);
      head + WithKey(rest, key, k);
      head + (WithKey(t[1..], key, k) + WithKey([x], key, k));
      { ConcatAssoc(head, WithKey(t[1..], key, k), WithKey([x], key, k)); }
      (head + WithKey(t[1..], key, k)) + WithKey([x], key, k);
      WithKey(t, key, k) + WithKey([x], key, k);
    }
  }

  /** Insertion sort, inserting the entries front to back. */
  function SortBy<T>(s: seq<T>, key: T -> int): (r: seq<T>)
    ensures Sorted(r, key)
    ensures multiset(r) == multiset(s)
  {
    if |s| == 0 then []
    else
      var init, x := s[..|s| - 1], s[|s| - 1];
      var sorted := SortBy(init, key);
      MultisetSnoc(s);
      InsertSorted(x, sorted, key);
      Insert(x, sorted, key)
  }

  /** The sort is stable: for every key, the entries with that key keep the
      order they had before sorting. */
  lemma {:induction false} SortStable<T>(s: seq<T>, key: T -> int, k: int)
    ensures WithKey(SortBy(s, key), key, k) == WithKey(s, key, k)
  {
    if |s| > 0 {
      var init, x := s[..|s| - 1], s[|s| - 1];
      var sorted := SortBy(init, key);
      assert SortBy(s, key) == Insert(x, sorted, key);
      SortStable(init, key, k);
      InsertStable(x, sorted, key, k);
      assert s == init + [x];
      WithKeyAppend(init, [x], key, k);
    }
  }

  lemma MultisetCons<T>(s: seq<T>)
    requires |s| > 0
    ensures multiset(s) == multiset{s[0]} + multiset(s[1..])
  {
    assert s == [s[0]] + s[1..];
  }

  lemma MultisetSnoc<T>(s: seq<T>)
    requires |s| > 0
    ensures multiset(s) == multiset(s[..|s| - 1]) + multiset{s[|s| - 1]}
  {
    assert s == s[..|s| - 1] + [s[|s| - 1]];
  }

  /** The entries of the listing that pass the filter, in listing order. */
  function Keep(listing: seq<string>): (r: seq<PosterName>)
    ensures forall n :: multiset(r)[n] == (if IsPosterName(n) then multiset(listing)[n] else 0)
  {
    if |listing| == 0 then []
    else
      var rest := Keep(listing[1..]);
      MultisetCons(listing);
      if IsPosterName(listing[0]) then
        MultisetCons([listing[0]] + rest);
        assert ([listing[0]] + rest)[1..] == rest;
        [listing[0]] + rest
      else rest
  }

  /** The filter keeps listing order: the entries kept from two listings
      joined are those kept from the first, then those kept from the second. */
  lemma {:induction false} KeepAppend(a: seq<string>, b: seq<string>)
    ensures Keep(a + b) == Keep(a) + Keep(b)
  {
    if |a| == 0 {
      assert a + b == b;
    } else {
      var head := if IsPosterName(a[0]) then [a[0]] else [];
      assert (a + b)[0] == a[0];
      assert (a + b)[1..] == a[1..] + b;
      calc {
        Keep(a + b);
        { KeepFirst(a + b); }
        head + Keep(a[1..] + b);
        { KeepAppend(a[1..], b); }
        head + (Keep(a[1..]) + Keep(b));
        { ConcatAssoc(head, Keep(a[1..]), Keep(b)); }
        (head + Keep(a[1..])) + Keep(b);
        { KeepFirst(a); }
        Keep(a) + Keep(b);
      }
    }
  }

  lemma KeepFirst(s: seq<string>)
    requires |s| > 0
    ensures Keep(s) == (if IsPosterName(s[0]) then [s[0]] else []) + Keep(s[1..])
  {
  }

  /** A single entry is kept exactly when it is a poster name. */
  lemma KeepOfName(n: string)
    ensures Keep([n]) == (if IsPosterName(n) then [n] else [])
  {
    assert [n][1..] == [];
  }

  /** `get_poster_files`: the poster entries of the listing, sorted by their
      number, entries with equal numbers in listing order. */
  function PosterSlots(listing: seq<string>): (r: seq<PosterName>)
    ensures forall n :: multiset(r)[n] == (if IsPosterName(n) then multiset(listing)[n] else 0)
    ensures forall n :: n in r <==> n in listing && IsPosterName(n)
    ensures Sorted(r, Key)
  {
    var r := SortBy(Keep(listing), Key);
    assert forall n :: n in r <==> multiset(r)[n] > 0;
    assert forall n :: n in listing <==> multiset(listing)[n] > 0;
    r
  }

  /** Entries with equal numbers (`poster1.png`, `poster01.png`) stay in
      listing order. */
  lemma PosterSlotsStable(listing: seq<string>, k: int)
    ensures WithKey(PosterSlots(listing), Key, k) == WithKey(Keep(listing), Key, k)
  {
    SortStable(Keep(listing), Key, k);
  }
}

=== FILE: repo_slug.dfy ===
/** The repository slug (`owner/name`) derived from the `origin` remote URL
    when no slug is configured: the URL is stripped, cut after its last colon,
    and the `.git` occurrences a left-to-right scan finds in what remains are
    deleted.
    `SlugAsWritten` is that expression; `Slug` is the derivation the code
    evidently intends (the path after the host, minus a trailing `.git`). */
module RepoSlug {
  import opened Text

  /** `w` occurs in `s` at position `i`. */
  predicate OccursAt(s: string, w: string, i: int) {
    0 <= i && i + |w| <= |s| && s[i..i + |w|] == w
  }

  predicate Occurs(s: string, w: string) {
    exists i :: 0 <= i <= |s| - |w| && OccursAt(s, w, i)
  }

  /** The last field of `s` split at colons: the longest suffix of `s` free
      of `:`, which is all of `s` or follows the last `:`. */
  function AfterLastColon(s: string): (r: string)
    ensures ':' !in r
    ensures |r| <= |s| && r == s[|s| - |r|..]
    ensures |r| == |s| || s[|s| - |r| - 1] == ':'
  {
    if |s| == 0 then []
    else if s[|s| - 1] == ':' then []
    else
      var init := s[..|s| - 1];
      var r := AfterLastColon(init);
      assert init[|init| - |r|..] + [s[|s| - 1]] == s[|s| - |r| - 1..];
      r + [s[|s| - 1]]
  }

  /** Whatever precedes a colon-free tail after a `:` is dropped. */
  lemma {:induction false} AfterColon(p: string, q: string)
    requires ':' !in q
    ensures AfterLastColon(p + [':'] + q) == q
  {
    var s := p + [':'] + q;
    if |q| == 0 {
      assert s[|s| - 1] == ':';
    } else {
      var q' := q[..|q| - 1];
      assert s[..|s| - 1] == p + [':'] + q';
      assert s[|s| - 1] == q[|q| - 1];
      AfterColon(p, q');
      assert q == q' + [q[|q| - 1]];
    }
  }

  /** Python's `str.replace` of `.git` by nothing: the occurrences found
      scanning left to right, without overlap, are removed; the scan does not
      look again at text it has passed. */
  function RemoveGit(s: string): (r: string)
    ensures |r| <= |s|
    ensures |s| > 0 && !OccursAt(s, ".git", 0) ==> |r| > 0 && r[0] == s[0]
  {
    if |s| < 4 then s
    else if s[..4] == ".git" then RemoveGit(s[4..])
    else [s[0]] + RemoveGit(s[1..])
  }

  /** Dropping the first character shifts every occurrence down by one. */
  lemma OccursShift(s: string, w: string, j: nat)
    requires |s| > 0
    ensures OccursAt(s[1..], w, j) <==> OccursAt(s, w, j + 1)
  {
    if j + |w| <= |s| - 1 {
      assert s[1..][j..j + |w|] == s[j + 1..j + 1 + |w|];
    }
  }

  /** The replacement changes the string exactly when `.git` occurs in it. */
  lemma {:induction false} RemoveGitUnchanged(s: string)
    ensures RemoveGit(s) == s <==> !Occurs(s, ".git")
  {
    if |s| < 4 {
      assert !Occurs(s, ".git");
    } else if s[..4] == ".git" {
      assert OccursAt(s, ".git", 0);
      assert |RemoveGit(s)| < |s|;
    } else {
      var t := s[1..];
      RemoveGitUnchanged(t);
      OccursTail(s);
      assert RemoveGit(s) == [s[0]] + RemoveGit(t);
      assert RemoveGit(s) == s <==> RemoveGit(t) == t by {
        if RemoveGit(s) == s {
          assert RemoveGit(t) == RemoveGit(s)[1..];
        }
        if RemoveGit(t) == t {
          assert s == [s[0]] + t;
        }
      }
    }
  }

  /** Without `.git` at the front, `.git` occurs in a string exactly when it
      occurs in the string's tail. */
  lemma OccursTail(s: string)
    requires |s| > 0 && !OccursAt(s, ".git", 0)
    ensures Occurs(s, ".git") <==> Occurs(s[1..], ".git")
  {
    var t := s[1..];
    if Occurs(s, ".git") {
      var i :| 0 <= i <= |s| - 4 && OccursAt(s, ".git", i);
      OccursShift(s, ".git", i - 1);
    }
    if Occurs(t, ".git") {
      var i :| 0 <= i <= |t| - 4 && OccursAt(t, ".git", i);
      OccursShift(s, ".git", i);
    }
  }

  /** A trailing `.git` is among the occurrences removed, and removing it
      disturbs nothing before it. */
  lemma {:induction false} RemoveGitSuffix(a: string)
    ensures RemoveGit(a + ".git") == RemoveGit(a)
  {
    var s := a + ".git";
    if |a| == 0 {
      assert s == ".git";
      assert s[4..] == [];
    } else if |a| < 4 {
      assert s[..4] != ".git" by {
        assert s[..4][|a|] == '.';
        assert ".git"[|a|] != '.';
      }
      assert s[1..] == a[1..] + ".git";
      RemoveGitSuffix(a[1..]);
      assert RemoveGit(a[1..]) == a[1..];
      assert a == [a[0]] + a[1..];
    } else if a[..4] == ".git" {
      assert s[..4] == ".git";
      assert s[4..] == a[4..] + ".git";
      RemoveGitSuffix(a[4..]);
    } else {
      assert s[..4] == a[..4];
      assert s[1..] == a[1..] + ".git";
      RemoveGitSuffix(a[1..]);
    }
  }

  /** The reference description of `str.replace`: the text before the first
      `.git` is kept, that occurrence is dropped, and the search resumes right
      after it. With the clause of `RemoveGit` for a string without `.git`,
      this determines the result. */
  lemma {:induction false} RemoveGitFirst(s: string, i: nat)
    requires OccursAt(s, ".git", i)
    requires forall j :: 0 <= j < i ==> !OccursAt(s, ".git", j)
    ensures RemoveGit(s) == s[..i] + RemoveGit(s[i + 4..])
  {
    if i == 0 {
      assert RemoveGit(s) == RemoveGit(s[4..]) by {
        assert s[..4] == ".git";
      }
      assert s[..0] + RemoveGit(s[4..]) == RemoveGit(s[4..]);
    } else {
      var t := s[1..];
      assert RemoveGit(s) == [s[0]] + RemoveGit(t) by {
        assert !OccursAt(s, ".git", 0);
      }
      OccursShift(s, ".git", i - 1);
      forall j | 0 <= j < i - 1
        ensures !OccursAt(t, ".git", j)
      {
        OccursShift(s, ".git", j);
      }
      RemoveGitFirst(t, i - 1);
      assert t[i + 3..] == s[i + 4..];
      var rest := RemoveGit(s[i + 4..]);
      calc {
        RemoveGit(s);
        [s[0]] + RemoveGit(t);
        [s[0]] + (t[..i - 1] + rest);
        { ConcatAssoc([s[0]], t[..i - 1], rest); }
        ([s[0]] + t[..i - 1]) + rest;
        { assert [s[0]] + t[..i - 1] == s[..i]; }
        s[..i] + rest;
      }
    }
  }

  /** Removal is a single left-to-right pass, so a `.git` formed by joining
      the pieces around a removed one survives. */
  lemma RemoveGitCanLeaveGit()
    ensures RemoveGit("x.g.gitit") == "x.git"
    ensures Occurs(RemoveGit("x.g.gitit"), ".git")
  {
    var s: string := "x.g.gitit";
    FirstGitAtThree();
    RemoveGitFirst(s, 3);
    assert RemoveGit(s[7..]) == s[7..] by { assert |s[7..]| < 4; }
    assert s[..3] + s[7..] == "x.git";
    GitInXGit();
  }

  lemma FirstGitAtThree()
    ensures forall j :: 0 <= j < 3 ==> !OccursAt("x.g.gitit", ".git", j)
    ensures OccursAt("x.g.gitit", ".git", 3)
  {
    var s: string := "x.g.gitit";
    assert s[0..4][0] == 'x';
    assert s[1..5][3] == 'g';
    assert s[2..6][0] == 'g';
    assert s[3..7] == ".git";
  }

  lemma GitInXGit()
    ensures Occurs("x.git", ".git")
  {
    var u: string := "x.git";
    assert u == ['x'] + ".git";
    assert u[1..5] == ".git";
    assert OccursAt(u, ".git", 1);
  }

  /** The slug as derived from the origin URL when no slug is configured:
      strip the URL, keep what follows its
      last colon, and delete the `.git` occurrences found scanning left to
      right. */
  function SlugAsWritten(url: string): (slug: string)
    ensures ':' !in slug
  {
    var r := RemoveGit(AfterLastColon(Strip(url)));
    assert forall c :: c in r ==> c in AfterLastColon(Strip(url)) by {
      RemoveGitKeeps(AfterLastColon(Strip(url)));
    }
    r
  }

  lemma {:induction false} RemoveGitKeeps(s: string)
    ensures forall c :: c in RemoveGit(s) ==> c in s
  {
    if |s| >= 4 {
      if s[..4] == ".git" {
        RemoveGitKeeps(s[4..]);
      } else {
        RemoveGitKeeps(s[1..]);
      }
    }
  }

  /** The SSH form of a GitHub remote. */
  function SshUrl(slug: string): string {
    "git@github.com:" + slug + ".git"
  }

  /** The HTTPS form of a GitHub remote. */
  function HttpsUrl(slug: string): string {
    "https://github.com/" + slug + ".git"
  }

  lemma SshUrlStripped(slug: string)
    ensures Strip(SshUrl(slug)) == SshUrl(slug)
  {
    var u := SshUrl(slug);
    assert u[0] == 'g' && u[|u| - 1] == 't';
    StrippedIsFixed(u);
  }

  /** On an SSH remote the expression as written yields the slug exactly when
      the slug itself holds no `.git`. */
  lemma SlugAsWrittenSsh(slug: string)
    requires ':' !in slug
    ensures SlugAsWritten(SshUrl(slug)) == RemoveGit(slug)
    ensures SlugAsWritten(SshUrl(slug)) == slug <==> !Occurs(slug, ".git")
  {
    SshAfterColon(slug);
    assert SlugAsWritten(SshUrl(slug)) == RemoveGit(slug + ".git");
    RemoveGitSuffix(slug);
    RemoveGitUnchanged(slug);
  }

  /** Stripping and splitting an SSH remote leaves `slug.git`. */
  lemma SshAfterColon(slug: string)
    requires ':' !in slug
    ensures AfterLastColon(Strip(SshUrl(slug))) == slug + ".git"
  {
    SshUrlStripped(slug);
    SshUrlSplit(slug);
    ColonFreeTail(slug);
    AfterColon("git@github.com", slug + ".git");
  }

  lemma SshUrlSplit(slug: string)
    ensures SshUrl(slug) == "git@github.com" + [':'] + (slug + ".git")
  {
    assert "git@github.com:" == "git@github.com" + [':'];
  }

  lemma ColonFreeTail(slug: string)
    requires ':' !in slug
    ensures ':' !in slug + ".git"
  {
    ColonFreeJoin(slug, ".git");
  }

  lemma ColonFreeJoin(a: string, b: string)
    requires ':' !in a && ':' !in b
    ensures ':' !in a + b
  {
    var ab := a + b;
    forall k | 0 <= k < |ab|
      ensures ab[k] != ':'
    {
      if k < |a| {
        assert ab[k] == a[k];
      } else {
        assert ab[k] == b[k - |a|];
      }
    }
  }

  /** Counterexample: a GitHub Pages repository, whose name contains `.git`,
      loses those characters (`alice/alicehub.io`). */
  lemma PagesRepositoryMangled()
    ensures SlugAsWritten(SshUrl("alice/alice.github.io")) != "alice/alice.github.io"
  {
    var slug := "alice/alice.github.io";
    assert OccursAt(slug, ".git", 11);
    SlugAsWrittenSsh(slug);
  }

  /** Counterexample: on an HTTPS remote the result keeps the host part, so
      it starts with `/` and is never the slug. */
  lemma SlugAsWrittenHttps(slug: string)
    requires ':' !in slug
    ensures |SlugAsWritten(HttpsUrl(slug))| > 0 && SlugAsWritten(HttpsUrl(slug))[0] == '/'
    ensures |slug| > 0 && slug[0] != '/' ==> SlugAsWritten(HttpsUrl(slug)) != slug
  {
    var tail := "//github.com/" + slug + ".git";
    HttpsAfterColon(slug);
    assert tail[0] == '/';
    assert !OccursAt(tail, ".git", 0) by { assert tail[..4][0] != '.'; }
  }

  /** Stripping and splitting an HTTPS remote leaves everything after
      `https:`. */
  lemma HttpsAfterColon(slug: string)
    requires ':' !in slug
    ensures AfterLastColon(Strip(HttpsUrl(slug))) == "//github.com/" + slug + ".git"
  {
    HttpsUrlStripped(slug);
    HttpsUrlSplit(slug);
    ColonFreeJoin("//github.com/", slug);
    ColonFreeTail("//github.com/" + slug);
    AfterColon("https", "//github.com/" + slug + ".git");
  }

  lemma HttpsUrlStripped(slug: string)
    ensures Strip(HttpsUrl(slug)) == HttpsUrl(slug)
  {
    var u := HttpsUrl(slug);
    assert u[0] == 'h' && u[|u| - 1] == 't';
    StrippedIsFixed(u);
  }

  lemma HttpsUrlSplit(slug: string)
    ensures HttpsUrl(slug) == "https" + [':'] + ("//github.com/" + slug + ".git")
  {
    assert "https://github.com/" == "https" + [':'] + "//github.com/";
  }

  // ---------------------------------------------------------------------------
  // The intended derivation
  // ---------------------------------------------------------------------------

  const HttpsPrefix := "https://github.com/"

  /** The path after the host (`https://github.com/` or the last `:`), with
      one trailing `.git` removed. */
  function Slug(url: string): (slug: string)
  {
    var u := Strip(url);
    var path := if StartsWith(u, HttpsPrefix) then u[|HttpsPrefix|..] else AfterLastColon(u);
    if EndsWith(path, ".git") then path[..|path| - 4] else path
  }

  /** The slug survives the round trip through an SSH remote URL, whatever
      its name contains. */
  lemma SlugOfSsh(slug: string)
    requires ':' !in slug
    ensures Slug(SshUrl(slug)) == slug
  {
    SshUrlStripped(slug);
    SshAfterColon(slug);
    var u := SshUrl(slug);
    assert u[..|HttpsPrefix|] != HttpsPrefix by { assert u[0] != HttpsPrefix[0]; }
    assert (slug + ".git")[|slug|..] == ".git";
    assert (slug + ".git")[..|slug|] == slug;
  }

  /** The slug survives the round trip through an HTTPS remote URL. */
  lemma SlugOfHttps(slug: string)
    ensures Slug(HttpsUrl(slug)) == slug
  {
    var u := HttpsUrl(slug);
    assert u[0] == 'h' && u[|u| - 1] == 't';
    StrippedIsFixed(u);
    assert u[..|HttpsPrefix|] == HttpsPrefix;
    assert u[|HttpsPrefix|..] == slug + ".git";
    assert (slug + ".git")[|slug|..] == ".git";
    assert (slug + ".git")[..|slug|] == slug;
  }
}

=== FILE: text.dfy ===
/** String helpers with Python's semantics: `str.strip()` with no argument,
    `str.startswith` and `str.endswith`. Strings are sequences of code points. */
module Text {

  /** The characters Python's `str.strip()` removes: CPython's whitespace
      table (ASCII tab to carriage return, the four information separators,
      space, NEL, NBSP and the Unicode space separators). */
  predicate IsSpace(c: char) {
    var n := c as int;
    || (9 <= n <= 13)
    || (28 <= n <= 32)
    || n == 0x85
    || n == 0xA0
    || n == 0x1680
    || (0x2000 <= n <= 0x200A)
    || n == 0x2028
    || n == 0x2029
    || n == 0x202F
    || n == 0x205F
    || n == 0x3000
  }

  predicate AllSpace(s: string) {
    forall k :: 0 <= k < |s| ==> IsSpace(s[k])
  }

  /** A string with no whitespace at either end. */
  predicate IsStripped(s: string) {
    |s| == 0 || (!IsSpace(s[0]) && !IsSpace(s[|s| - 1]))
  }

  predicate StartsWith(s: string, prefix: string) {
    |prefix| <= |s| && s[..|prefix|] == prefix
  }

  predicate EndsWith(s: string, suffix: string) {
    |suffix| <= |s| && s[|s| - |suffix|..] == suffix
  }

  lemma ConcatAssoc<T>(a: seq<T>, b: seq<T>, c: seq<T>)
    ensures a + (b + c) == (a + b) + c
  {
  }

  /** Length of the longest all-whitespace prefix. */
  function LeadingSpace(s: string): (n: nat)
    ensures n <= |s|
    ensures AllSpace(s[..n])
    ensures n == |s| || !IsSpace(s[n])
  {
    if |s| == 0 || !IsSpace(s[0]) then 0
    else
      var m := LeadingSpace(s[1..]);
      assert s[1..][..m] == s[1..m + 1];
      1 + m
  }

  /** Length of the longest all-whitespace suffix. */
  function TrailingSpace(s: string): (n: nat)
    ensures n <= |s|
    ensures AllSpace(s[|s| - n..])
    ensures n == |s| || !IsSpace(s[|s| - n - 1])
  {
    if |s| == 0 || !IsSpace(s[|s| - 1]) then 0
    else
      var init := s[..|s| - 1];
      var m := TrailingSpace(init);
      assert s[|s| - 1 - m..] == init[|init| - m..] + [s[|s| - 1]];
      assert m < |init| ==> init[|init| - m - 1] == s[|s| - (1 + m) - 1];
      1 + m
  }

  /** Python's `s.strip()`: the part of `s` between its leading and its
      trailing whitespace. */
  function Strip(s: string): (r: string)
    ensures IsStripped(r)
    ensures exists i, j :: 0 <= i <= j <= |s| && r == s[i..j] && AllSpace(s[..i]) && AllSpace(s[j..])
    ensures r == [] <==> AllSpace(s)
  {
    var i := LeadingSpace(s);
    var t := s[i..];
    var n := TrailingSpace(t);
    var j := |s| - n;
    assert t[..|t| - n] == s[i..j];
    assert t[|t| - n..] == s[j..];
    assert i < j ==> s[i] == t[0] && s[j - 1] == t[|t| - n - 1];
    assert i == |s| ==> AllSpace(s) by { if i == |s| { assert s[..i] == s; } }
    assert i < |s| ==> !AllSpace(s) by { if i < |s| { assert !IsSpace(s[i]); } }
    assert 0 <= i <= j <= |s| && AllSpace(s[..i]) && AllSpace(s[j..]);
    s[i..j]
  }

  /** Stripping is idempotent. */
  lemma StripIdempotent(s: string)
    ensures Strip(Strip(s)) == Strip(s)
  {
    StrippedIsFixed(Strip(s));
  }

  /** A string without surrounding whitespace is left unchanged by `Strip`. */
  lemma StrippedIsFixed(s: string)
    requires IsStripped(s)
    ensures Strip(s) == s
  {
    if |s| > 0 {
      assert LeadingSpace(s) == 0;
      assert TrailingSpace(s) == 0;
      assert s[0..|s|] == s;
    }
  }
}

=== FILE: world.dfy ===
/** One world's pass through the main loop: find its poster slots, read each
    slot's previous hash, select pool images, and either plan one copy per
    slot or skip the world. Directory listing, hashing and copying are I/O:
    the listing (`None` when the directory does not exist), the hashes of the
    existing slot files and the shuffled pool come in as values, and the
    copies come out as a plan. */
module World {
  import opened Assignment
  import opened PosterFiles

  /** Copy pool image `image` over slot file `slot`; `warned` when the
      fallback pass chose it. */
  datatype Copy<H> = Copy(slot: string, image: Image<H>, warned: bool)

  datatype Plan<H> =
    | MissingDirectory
    | NoPosters
    | PoolExhausted
    | Replace(copies: seq<Copy<H>>)

  /** The hash of a slot file before the run, `None` when it does not exist. */
  function PreviousHash<H>(current: map<string, H>, slot: string): Option<H> {
    if slot in current then Some(current[slot]) else None
  }

  /** The previous hash of every slot, in slot order. */
  function PreviousHashes<H>(current: map<string, H>, slots: seq<string>): (prevs: seq<Option<H>>)
    ensures |prevs| == |slots|
  {
    seq(|slots|, i requires 0 <= i < |slots| => PreviousHash(current, slots[i]))
  }

  /** A slot whose file does not exist constrains nothing: whenever the
      slot is served at all, the primary pass serves it, so no warning is
      logged for it. */
  lemma MissingSlotNeverFallback<H>(current: map<string, H>, slots: seq<string>, i: nat,
                                    available: seq<Image<H>>, used: set<H>)
    requires i < |slots| && slots[i] !in current
    ensures PickFor(available, used, PreviousHashes(current, slots)[i]).Some? ==>
      !PickFor(available, used, PreviousHashes(current, slots)[i]).value.fallback
  {
  }

  /** A slot whose file exists never receives, from the primary pass, an
      image with that file's hash. */
  lemma ExistingSlotAvoidsOldImage<H>(current: map<string, H>, slots: seq<string>, i: nat,
                                      available: seq<Image<H>>, used: set<H>)
    requires i < |slots| && slots[i] in current
    ensures (PickFor(available, used, PreviousHashes(current, slots)[i]).Some? &&
             !PickFor(available, used, PreviousHashes(current, slots)[i]).value.fallback) ==>
      PickFor(available, used, PreviousHashes(current, slots)[i]).value.image.hash != current[slots[i]]
  {
  }

  /** Slot `i` receives pick `i`. */
  function Copies<H>(slots: seq<string>, picks: seq<Pick<H>>): seq<Copy<H>>
    requires |picks| == |slots|
  {
    seq(|slots|, i requires 0 <= i < |slots| => Copy(slots[i], picks[i].image, picks[i].fallback))
  }

  function Images<H>(copies: seq<Copy<H>>): seq<Image<H>> {
    seq(|copies|, i requires 0 <= i < |copies| => copies[i].image)
  }

  /** What a replacement plan guarantees: slot `i` of the world receives
      copy `i`; every image comes from the pool; no two slots receive images
      with the same hash; a slot receives its previous image only with a
      warning, and only when every pool image is either already used in this
      world or equal to that previous image. */
  ghost predicate ValidPlan<H>(slots: seq<string>, current: map<string, H>, pool: seq<Image<H>>, copies: seq<Copy<H>>) {
    && |copies| == |slots|
    && (forall i :: 0 <= i < |copies| ==> copies[i].slot == slots[i] && copies[i].image in pool)
    && (forall i, j :: 0 <= i < j < |copies| ==> copies[i].image.hash != copies[j].image.hash)
    && (forall i :: 0 <= i < |copies| && !copies[i].warned ==>
          PreviousHash(current, copies[i].slot) != Some(copies[i].image.hash))
    && (forall i :: 0 <= i < |copies| && copies[i].warned ==>
          forall c :: c in pool ==>
            c.hash in Hashes(Images(copies[..i])) || PreviousHash(current, copies[i].slot) == Some(c.hash))
  }

  lemma PlanOfSelection<H>(slots: seq<string>, current: map<string, H>,
                           pool: seq<Image<H>>, shuffled: seq<Image<H>>, picks: seq<Pick<H>>)
    requires multiset(shuffled) == multiset(pool)
    requires ValidSelection(pool, shuffled, PreviousHashes(current, slots), picks)
    ensures ValidPlan(slots, current, pool, Copies(slots, picks))
  {
    var prevs := PreviousHashes(current, slots);
    var copies := Copies(slots, picks);
    forall i, c | 0 <= i < |copies| && copies[i].warned && c in pool
      ensures c.hash in Hashes(Images(copies[..i])) || prevs[i] == Some(c.hash)
    {
      assert IsFirstPick(shuffled, Hashes(ImagesOf(picks[..i])), prevs[i], picks[i]);
      assert c in multiset(shuffled);
      var j :| 0 <= j < |shuffled| && shuffled[j] == c;
      assert Images(copies[..i]) == ImagesOf(picks[..i]);
    }
  }

  /** The plan for one world. `pool` is the catalogue, `shuffled` its
      permutation drawn for this world. */
  function PlanWorld<H(==)>(listing: Option<seq<string>>, current: map<string, H>,
                            pool: seq<Image<H>>, shuffled: seq<Image<H>>): (r: Plan<H>)
    requires multiset(shuffled) == multiset(pool)
    ensures r.MissingDirectory? <==> listing.None?
    ensures r.NoPosters? <==> listing.Some? && forall n :: n in listing.value ==> !IsPosterName(n)
    ensures r.PoolExhausted? <==>
      listing.Some? && 0 < |PosterSlots(listing.value)| && |Hashes(pool)| < |PosterSlots(listing.value)|
    ensures r.Replace? ==> listing.Some? && ValidPlan(PosterSlots(listing.value), current, pool, r.copies)
  {
    match listing
    case None => MissingDirectory
    case Some(names) =>
      var slots := PosterSlots(names);
      if |slots| == 0 then
        assert forall n :: n in names ==> !IsPosterName(n);
        NoPosters
      else
        assert exists n :: n in names && IsPosterName(n) by { assert slots[0] in names; }
        var prevs := PreviousHashes(current, slots);
        match Assign(pool, shuffled, prevs)
        case None => PoolExhausted
        case Some(picks) =>
          PlanOfSelection(slots, current, pool, shuffled, picks);
          Replace(Copies(slots, picks))
  }
}

=== FILE: world_list.dfy ===
/** The world list: one world identifier per line of the list file, with
    surrounding whitespace removed and blank lines ignored. Reading the file
    and splitting it into lines is I/O; the model starts from the lines. */
module WorldList {
  import opened Text

  /** The world names: every line with its surrounding whitespace stripped,
      in file order, leaving out the lines that are blank once stripped. */
  function Worlds(lines: seq<string>): (r: seq<string>)
    ensures |r| <= |lines|
    ensures forall k :: 0 <= k < |r| ==> r[k] != [] && IsStripped(r[k])
    ensures forall w :: w in r <==> w != [] && exists l :: l in lines && Strip(l) == w
  {
    if |lines| == 0 then []
    else
      var w := Strip(lines[0]);
      var rest := Worlds(lines[1..]);
      assert forall l :: l in lines <==> l == lines[0] || l in lines[1..];
      if w == [] then rest else [w] + rest
  }

  /** Reading a file in two parts yields the worlds of the first part
      followed by those of the second: the order of the lines is kept. */
  lemma {:induction false} WorldsAppend(a: seq<string>, b: seq<string>)
    ensures Worlds(a + b) == Worlds(a) + Worlds(b)
  {
    if |a| == 0 {
      assert a + b == b;
    } else {
      assert (a + b)[0] == a[0];
      assert (a + b)[1..] == a[1..] + b;
      WorldsAppend(a[1..], b);
    }
  }

  /** A single line contributes its stripped text, or nothing if it is blank. */
  lemma WorldsOfLine(l: string)
    ensures Worlds([l]) == (if Strip(l) == [] then [] else [Strip(l)])
  {
    assert [l][1..] == [];
  }

  /** Lines that are already world identifiers pass through unchanged. */
  lemma {:induction false} WorldsOfClean(lines: seq<string>)
    requires forall k :: 0 <= k < |lines| ==> lines[k] != [] && IsStripped(lines[k])
    ensures Worlds(lines) == lines
  {
    if |lines| > 0 {
      StrippedIsFixed(lines[0]);
      WorldsOfClean(lines[1..]);
    }
  }
}
